=== FILE: README.md ===
# Positional index and suffix-array concordance store

A Dafny model of two parts of the `lex` bitext/lexicon engine.

- **Positional index** (`org.oscii.corpus.Corpus`, module `PositionalIndex`,
  `corpus.dfy`): a corpus keeps its tokenized lines in input order and a map
  from each word to its posting list of `(line, position)` pairs. `addLines`
  appends the tokenized lines and indexes every token in line-major,
  position-minor order. `count`, `postings` and `vocab` query the map. The
  state is the immutable `Corpus` datatype, `AddLines` is a pure state
  transformer, and the tokenizer is a function parameter. The invariant
  `Valid` says what the index means. Every posting list is non-empty and
  strictly increasing. Every posting is a real occurrence (soundness). Every
  occurrence is posted (completeness). The list lengths add up to the number
  of tokens stored.
- **Concordance store** (`org.oscii.concordance.SuffixArrayCorpus`, module
  `Concordance`, `concordance.dfy`): a two-level map from source language to
  target language to suffix array. It is meant to register one array per
  language pair and reject duplicates. As written, an array whose source
  language has no map yet is dropped, so a second read of that pair is
  accepted too (see "## Findings"); the model states both this behaviour and
  the corrected registration. For a query phrase it computes the
  target-phrase counts per target language. The query is trimmed of
  characters at or below U+0020 and split at runs of `\s` characters (space,
  tab, line feed, vertical tab, form feed, carriage return), and each word is mapped to a vocabulary id. The toolkit
  samples occurrences and extracts rules; each rule's target ids are turned
  back into words joined by single spaces. The extracted rules are then
  grouped by that target string and counted.
- **Supporting modules**: `Text` (`text.dfy`) models Java's `String.trim`,
  `split("\\s+")`, `String.join` with a one-character separator, and an exact
  split that inverts the join. `MapSum` (`map_sum.dfy`) is the sum of a
  finite map's values, used to state that per-key counts add up to a total. `Seqs`
  (`seqs.dfy`) holds generic facts about sequence concatenation used as
  proof steps.

The suffix array's sampling and the rule extraction come from an external
library. They are the two function fields of the `Concordance.Toolkit`
parameter. This code reads only a suffix array's
vocabulary. The array's sentences are kept as well because the toolkit
functions read them: two arrays with the same vocabulary need not give the
same samples.

## Model

| member | source | states |
|---|---|---|
| PositionalIndex.NewCorpus | src/main/java/org/oscii/corpus/Corpus.java:20-26 | a new corpus has no lines and no postings, and satisfies the index invariant |
| PositionalIndex.IndexWord | src/main/java/org/oscii/corpus/Corpus.java:59-66 | a word without a list gets the one-posting list; otherwise the posting is appended to its list; no other word's list changes; nothing is removed |
| PositionalIndex.IndexWordSound | src/main/java/org/oscii/corpus/Corpus.java:59-66 | posting the token at (i, j) keeps every list non-empty and strictly increasing, and every posting a real occurrence before (i, j + 1) |
| PositionalIndex.IndexWordComplete | src/main/java/org/oscii/corpus/Corpus.java:59-66 | after posting the token at (i, j), every occurrence up to (i, j) is posted under its word |
| PositionalIndex.IndexWordSum | src/main/java/org/oscii/corpus/Corpus.java:59-66 | indexing one token adds exactly one to the total posting-list length |
| PositionalIndex.AppendSorted | src/main/java/org/oscii/corpus/Corpus.java:65 | appending a posting that follows every posting of a sorted list keeps it strictly increasing |
| PositionalIndex.IndexWordStep | src/main/java/org/oscii/corpus/Corpus.java:38-40 | one step of the inner loop moves the index invariant from position j to j + 1 |
| PositionalIndex.NextLine | src/main/java/org/oscii/corpus/Corpus.java:36-41 | finishing a line's tokens moves the invariant to the start of the next line |
| PositionalIndex.ExtendLines | src/main/java/org/oscii/corpus/Corpus.java:34-35 | appending lines keeps an index of the old lines sound and complete up to the first new line |
| PositionalIndex.IndexTokens | src/main/java/org/oscii/corpus/Corpus.java:38-40 | indexing the rest of line i from position j completes the line, only grows lists, and leaves the lists of words not in that part alone |
| PositionalIndex.IndexLines | src/main/java/org/oscii/corpus/Corpus.java:36-41 | indexing lines from i on completes the index, only grows lists, and leaves the lists of words absent from those lines alone |
| PositionalIndex.Tokenized | src/main/java/org/oscii/corpus/Corpus.java:35 | one tokenized line per input line, in input order |
| PositionalIndex.AddLines | src/main/java/org/oscii/corpus/Corpus.java:33-42 | the k-th new line gets index old size + k and is its tokens; earlier lines are unchanged; the invariant is kept; postings only grow; words absent from the new lines keep their lists |
| PositionalIndex.AddLinesBatching | src/main/java/org/oscii/corpus/Corpus.java:33-42 | adding lines in two calls gives the same corpus as adding them all in one call |
| PositionalIndex.IndexLinesPrefix | src/main/java/org/oscii/corpus/Corpus.java:36-41 | indexing a longer list of lines is indexing its prefix and then the remaining lines |
| PositionalIndex.IndexTokensSameLine | src/main/java/org/oscii/corpus/Corpus.java:37-40 | indexing a line depends only on that line's tokens |
| PositionalIndex.Postings | src/main/java/org/oscii/corpus/Corpus.java:48-50 | for a valid corpus, the list is strictly increasing and holds (i, j) exactly when the word is token j of line i |
| PositionalIndex.SortedCard | src/main/java/org/oscii/corpus/Corpus.java:65 | a strictly increasing posting list has no repeated posting |
| PositionalIndex.Count | src/main/java/org/oscii/corpus/Corpus.java:44-46 | for a valid corpus, the count is the number of positions where the word occurs |
| PositionalIndex.Vocab | src/main/java/org/oscii/corpus/Corpus.java:68-70 | for a valid corpus, the vocabulary is exactly the set of words occurring in some stored line |
| PositionalIndex.UnseenWord | src/main/java/org/oscii/corpus/Corpus.java:44-50 | a word in no stored line has the empty posting list and count 0 |
| PositionalIndex.CountsSumToTokens | src/main/java/org/oscii/corpus/Corpus.java:59-70 | the posting-list lengths over the vocabulary add up to the number of stored tokens |
| Concordance.Read | src/main/java/org/oscii/concordance/SuffixArrayCorpus.java:40-45 | fails exactly when the pair is registered; otherwise only the target entry of the source language's map changes, and a source language without a map leaves the store unchanged |
| Concordance.ReadDropsNewSourceLanguage | src/main/java/org/oscii/concordance/SuffixArrayCorpus.java:40-45 | reading into the empty store leaves it empty, so the pair stays unregistered and a second read is accepted too |
| Concordance.Register | src/main/java/org/oscii/concordance/SuffixArrayCorpus.java:40-45 | fails exactly when the pair is registered; otherwise the pair is registered with the array, every other registration is kept and nothing else is added |
| Concordance.RegisterTwiceFails | src/main/java/org/oscii/concordance/SuffixArrayCorpus.java:41-44 | a second registration of a pair fails with the duplicate error and the first array stays |
| Concordance.ReadAgreesWithRegister | src/main/java/org/oscii/concordance/SuffixArrayCorpus.java:40-45 | the code as written and the corrected registration agree exactly when the source language already has a map |
| Concordance.IndexOf | src/main/java/org/oscii/concordance/SuffixArrayCorpus.java:65 | -1 exactly for a word outside the vocabulary, otherwise the position of its first occurrence |
| Concordance.PhraseIds | src/main/java/org/oscii/concordance/SuffixArrayCorpus.java:63-66 | one id per query word; an id is -1 exactly when its word is outside the vocabulary, otherwise it names that word |
| Concordance.TargetWords | src/main/java/org/oscii/concordance/SuffixArrayCorpus.java:77-80 | the vocabulary words of a rule's target ids, in order |
| Concordance.TargetOf | src/main/java/org/oscii/concordance/SuffixArrayCorpus.java:76-82 | an empty rule gives the empty string and a one-id rule gives its word |
| Concordance.TargetOfSplits | src/main/java/org/oscii/concordance/SuffixArrayCorpus.java:76-82 | for a rule of at least one id whose vocabulary words are space-free, splitting the target string at spaces gives back one field per id, field i being word i (an empty rule gives the empty string, which splits into one empty field) |
| Concordance.TargetOfReadsBack | src/main/java/org/oscii/concordance/SuffixArrayCorpus.java:76-82 | for a rule of at least one id whose every word is non-empty with only characters above U+0020, its target string read back as a query (`Text.Words`) gives the same words (an empty rule gives the empty string, which reads back as one empty word) |
| Concordance.ExtractedRules | src/main/java/org/oscii/concordance/SuffixArrayCorpus.java:71-72 | a rule is in the flattened list exactly when it is extracted from some sample, and one sample gives exactly its own rules |
| Concordance.ExtractedRulesAppend | src/main/java/org/oscii/concordance/SuffixArrayCorpus.java:71-72 | flattening keeps sample order: the rules for two runs of samples are the first run's rules followed by the second's |
| Concordance.QueryRules | src/main/java/org/oscii/concordance/SuffixArrayCorpus.java:62-72 | the query's words (`trim` then `split`) are mapped to ids; `sample` is called with those ids and the cap `MaxSamples`; the result is the flattening `ExtractedRules` of the samples, extraction being told the phrase's length in words and `MaxTargetPhrase`, so every copy of every extracted rule is kept; a rule is in it exactly when some sample yields it, and no samples give no rules |
| Concordance.QueryRulesFramed | src/main/java/org/oscii/concordance/SuffixArrayCorpus.java:62 | characters at or below U+0020 around a query do not change the rules it yields |
| Concordance.Targets | src/main/java/org/oscii/concordance/SuffixArrayCorpus.java:73 | one target string per rule, in rule order |
| Concordance.GroupCount | src/main/java/org/oscii/concordance/SuffixArrayCorpus.java:73 | the keys are the distinct strings, each count is the string's multiplicity and at least 1, and the counts add up to the number of strings |
| Concordance.GroupCountSnoc | src/main/java/org/oscii/concordance/SuffixArrayCorpus.java:73 | counting one more key bumps that key's entry and keeps every count equal to its multiplicity |
| Concordance.GroupCountPermutation | src/main/java/org/oscii/concordance/SuffixArrayCorpus.java:71-73 | the grouped counts do not depend on the order of the rules |
| Concordance.CountRules | src/main/java/org/oscii/concordance/SuffixArrayCorpus.java:71-73 | fails exactly when some rule has an id outside the vocabulary; otherwise each key is some rule's target string, each count is how many rules give it and at least 1, and the counts add up to the number of rules |
| Concordance.CountAll | src/main/java/org/oscii/concordance/SuffixArrayCorpus.java:60-74 | for the rules extracted for the query: the keys are exactly their target strings and the counts add up to their number; it fails exactly when one has an id outside the vocabulary |
| Concordance.TranslationFrequencies | src/main/java/org/oscii/concordance/SuffixArrayCorpus.java:49-58 | an unknown source language gives the zero function; otherwise there is one count map per registered target language, each that array's counts, and the query fails exactly when one of them does, with that count's error |
| Concordance.CountEach | src/main/java/org/oscii/concordance/SuffixArrayCorpus.java:55-56 | one count map per target language, each being that language's array's count, with exactly the registered target languages as keys; fails exactly when some array's count fails |
| Concordance.NoSamplesNoCounts | src/main/java/org/oscii/concordance/SuffixArrayCorpus.java:55-56 | when nothing is sampled, every registered target language gets an empty count map |
| Concordance.Examples | src/main/java/org/oscii/concordance/SuffixArrayCorpus.java:85-87 | always the empty list |
| Text.Trim | src/main/java/org/oscii/concordance/SuffixArrayCorpus.java:62 | the result has no character at or below U+0020 at either end, is empty exactly when every character is at or below U+0020, and is the input when the input's ends are already above U+0020 |
| Text.TrimSlice | src/main/java/org/oscii/concordance/SuffixArrayCorpus.java:62 | for every input, the trimmed text is a contiguous slice `s[a..a + n]` of the input with only characters at or below U+0020 before and after it |
| Text.TrimFrame | src/main/java/org/oscii/concordance/SuffixArrayCorpus.java:62 | conversely, trimming a text that starts and ends above U+0020 inside a frame of characters at or below U+0020 gives exactly that text |
| Text.Words | src/main/java/org/oscii/concordance/SuffixArrayCorpus.java:62 | a text of characters at or below U+0020 only (what `trim` empties) gives exactly the single empty word; any other text gives non-empty words without `\s` characters |
| Text.Fields | src/main/java/org/oscii/concordance/SuffixArrayCorpus.java:62 | the `split("\\s+")` step: the empty string has no fields, a string starting outside `\s` has at least one, and every field is non-empty and free of `\s` characters; with `FieldsSplitAt` and `FieldsWord` this fixes the fields of every string (Java's split gives `[""]` on the empty string, which `Words` covers) |
| Text.FieldsSplitAt | src/main/java/org/oscii/concordance/SuffixArrayCorpus.java:62 | a `\s` character splits the fields: the fields of `a + [c] + b` are those of `a` followed by those of `b`; with `FieldsWord` and the empty text this fixes the fields of every text |
| Text.FieldsWord | src/main/java/org/oscii/concordance/SuffixArrayCorpus.java:62 | a non-empty word without `\s` characters is its own only field |
| Text.FieldsAfterSpaces | src/main/java/org/oscii/concordance/SuffixArrayCorpus.java:62 | a leading run of `\s` characters does not change the fields |
| Text.WordsFramed | src/main/java/org/oscii/concordance/SuffixArrayCorpus.java:62 | the words of a text framed by characters at or below U+0020 are the fields of what the frame holds |
| Text.WordsPair | src/main/java/org/oscii/concordance/SuffixArrayCorpus.java:62 | two words of characters above U+0020 with a run of `\s` characters between them are exactly the two words of the text |
| Text.WordsTwoSpaces | src/main/java/org/oscii/concordance/SuffixArrayCorpus.java:62 | `"a  b"` gives `["a", "b"]`: a run of two spaces is one separator |
| Text.WordsTab | src/main/java/org/oscii/concordance/SuffixArrayCorpus.java:62 | `"a\tb"` gives `["a", "b"]`: a tab separates like a space |
| Text.WordsControlInside | src/main/java/org/oscii/concordance/SuffixArrayCorpus.java:62 | `"\U{1}a\U{1}b "` gives `["a\U{1}b"]`: U+0001 is trimmed at the ends but is not `\s`, so it stays inside the word |
| Text.WordsControlOnly | src/main/java/org/oscii/concordance/SuffixArrayCorpus.java:62 | `"\U{1}"` gives the single empty word, because `trim` empties it |
| Text.WordsDelete | src/main/java/org/oscii/concordance/SuffixArrayCorpus.java:62 | `"\U{7F}"` gives `["\U{7F}"]`: U+007F is above U+0020, so `trim` keeps it |
| Text.SplitJoin | src/main/java/org/oscii/concordance/SuffixArrayCorpus.java:81 | for a list of at least one string, none containing the separator, splitting the join at the separator gives back the list |
| Text.Join | src/main/java/org/oscii/concordance/SuffixArrayCorpus.java:81 | `String.join`: no strings give the empty string, and the join starts with the first string |
| Text.JoinSeparators | src/main/java/org/oscii/concordance/SuffixArrayCorpus.java:81 | for n ≥ 1 strings, none containing the separator, the join holds exactly n - 1 separators |
| Text.WordsJoin | src/main/java/org/oscii/concordance/SuffixArrayCorpus.java:62 | a list of at least one word, each non-empty and of characters above U+0020 only, joined by single spaces is split back into exactly those words by the query splitting |

## Left out

- `Corpus.addLines(String path)` (src/main/java/org/oscii/corpus/Corpus.java:28-31) reads a file as a parallel stream. That is I/O. The model takes the lines as a sequence, in the order `forEachOrdered` guarantees.
- `internAll` (src/main/java/org/oscii/corpus/Corpus.java:52-57) only changes which string objects are shared. No value changes, so it is left out.
- The tokenizer is not part of this model. It is the function parameter `tokenize` of `AddLines`. In the source it is fixed once by the constructor (src/main/java/org/oscii/corpus/Corpus.java:22-26); the model passes it on every call, so it also admits a corpus built with different tokenizers in different calls, which the source cannot produce. `AddLinesBatching` is stated for one tokenizer used in both calls.
- `PostingList` is not part of this model. It is a sequence of pairs; `addPosting` appends and `EMPTY` is the empty sequence.
- The positions are `nat`, not 32-bit `int`. A corpus with more than 2^31 lines or tokens per line is outside the model.
- Building a `ParallelSuffixArray` from files, `paths(...)` and the logging are left out. `read` takes the built array as a parameter. Its unused `max` argument is dropped.
- `ParallelSuffixArray.sample` and `DynamicTranslationModel.extractRules` are external library code. They are the uninterpreted function fields of `Toolkit`. `sample` always receives the cap `MaxSamples` and `extractRules` the limit `MaxTargetPhrase`. That `sample` returns at most `MaxSamples` results, and that they are occurrences of the phrase, is assumed of the library and not modelled: `sample` is unconstrained. The constant `true` flag that `countAll` also passes to `sample` (src/main/java/org/oscii/concordance/SuffixArrayCorpus.java:67) is not a parameter of the model: its effect lies inside the library, so it is part of what the uninterpreted `sample` field stands for.
- The `Vocabulary` class is not part of this model. `indexOf` is taken to return the first position of the word or -1. `get` on an id outside the vocabulary is taken to be an error, `UnknownWordId`, rather than whatever the library does.
- `normalizeByLanguage` and `zeroFrequency` are not part of this model; they belong to `AlignedCorpus` and produce floating-point scores. `Frequencies` records either the zero function or the integer counts that normalisation receives.
- The `suffixes` field is never initialised in the source, so every call would dereference null. The model takes the store as a parameter instead.
- The unused `counts` map declared in `countAll` has no effect and is left out.
- Concurrency and the mutability of the Java maps are left out. Every operation is a pure function from the old state to the new one.
- Text.Split: splits exactly at every separator and keeps trailing empty fields, unlike Java's `String.split`. It is used only to state that a joined target string separates back into its words.
- Concordance.TargetOf: its own contract covers only the empty and one-id rules. The general shape is in `TargetWords`, `TargetOfSplits` and `TargetOfReadsBack`.
- Concordance.CountAll: states the keys and the sum but not each individual count. `CountRules`, which it applies to the query's rules, states each count as a multiplicity.

## Findings

| source | as written | input that shows it | evidently intended | confidence | as-written member | corrected member |
|---|---|---|---|---|---|---|
| src/main/java/org/oscii/concordance/SuffixArrayCorpus.java:40-45 | `getOrDefault` returns a fresh map for a new source language, the array is put into that map, and the map is never stored in `suffixes` | an empty store and a read of `en`-`es`: the store stays empty, so the pair is never registered and a second read of `en`-`es` is accepted instead of rejected | store the fresh map under the source language (`computeIfAbsent`), so that every accepted read registers its pair | high, not executed | Concordance.Read (with Concordance.ReadDropsNewSourceLanguage) | Concordance.Register (with Concordance.RegisterTwiceFails) |

=== FILE: concordance.dfy ===
/** The store and counting logic of a suffix-array backed bitext corpus:
    registration of one suffix array per language pair, and the counting of
    the target phrases extracted for a query phrase. The suffix array's own
    sampling and the phrase extraction belong to an external toolkit and enter
    as the function fields of `Toolkit`. */
module Concordance {
  import MapSum
  import Text

  /** Cap on the occurrences the toolkit samples for one query phrase. */
  const MaxSamples: nat := 1000

  /** Longest target phrase the toolkit extracts. */
  const MaxTargetPhrase: nat := 5

  /** A phrase in a language: a query, or a candidate translation. */
  datatype Expression = Expression(text: string, language: string)

  /** One aligned sentence pair, as returned by concordance lookups. */
  datatype AlignedSentence = AlignedSentence(source: seq<string>, target: seq<string>)

  /** A built suffix array over one bitext: its vocabulary (word id i names
      `vocabulary[i]`) and the bitext's sentences as word ids. Only the
      vocabulary is read here; the rest is the toolkit's business. */
  datatype SuffixArray = SuffixArray(vocabulary: seq<string>, source: seq<seq<int>>, target: seq<seq<int>>)

  /** A sampled occurrence of a query phrase: sentence-pair index and start offset. */
  datatype QueryResult = QueryResult(sentence: nat, start: nat)

  /** The target side of an extracted rule: word ids in the array's vocabulary. */
  type Rule = seq<int>

  /** The external toolkit: sampling for a phrase of word ids, given a cap on
      the number of samples, and rule extraction for one sample given the
      source phrase length and the longest target phrase. Both are
      uninterpreted: that a sample is an occurrence of the phrase and that
      there are at most as many as the cap is the library's business and is
      not stated here. */
  datatype Toolkit = Toolkit(
    sample: (SuffixArray, seq<int>, nat) -> seq<QueryResult>,
    extractRules: (SuffixArray, QueryResult, nat, nat) -> seq<Rule>)

  /** Source language to target language to suffix array. */
  type Store = map<string, map<string, SuffixArray>>

  datatype Error =
    | DuplicateCorpus(source: string, target: string)
    | UnknownWordId

  datatype Result<T> = Success(value: T) | Failure(error: Error)

  /** The outcome of a frequency query: the zero function, or the per-target-
      language counts of target phrases that normalisation turns into scores. */
  datatype Frequencies = ZeroFrequency | Counted(counts: map<string, map<string, nat>>)

  /** Some array is registered for the language pair. */
  predicate Registered(suffixes: Store, source: string, target: string) {
    source in suffixes && target in suffixes[source]
  }

  /** Registers a suffix array for a language pair, as the original code does:
      a second array for the same pair is rejected; otherwise the pair is added
      to the map stored under the source language, but when that language has
      no map yet the fresh map is never stored, so nothing is registered. */
  function Read(suffixes: Store, sourceLanguage: string, targetLanguage: string, sa: SuffixArray): (r: Result<Store>)
    ensures r.Failure? <==> Registered(suffixes, sourceLanguage, targetLanguage)
    ensures r.Failure? ==> r.error == DuplicateCorpus(sourceLanguage, targetLanguage)
    ensures r.Success? ==> r.value.Keys == suffixes.Keys
    ensures r.Success? ==> forall s :: s in suffixes && s != sourceLanguage ==> r.value[s] == suffixes[s]
    ensures r.Success? && sourceLanguage in suffixes ==>
              && r.value[sourceLanguage].Keys == suffixes[sourceLanguage].Keys + {targetLanguage}
              && r.value[sourceLanguage][targetLanguage] == sa
              && forall t :: t in suffixes[sourceLanguage] ==> r.value[sourceLanguage][t] == suffixes[sourceLanguage][t]
    ensures r.Success? && sourceLanguage !in suffixes ==> r.value == suffixes
  {
    var bySource := if sourceLanguage in suffixes then suffixes[sourceLanguage] else map[];
    if targetLanguage in bySource then Failure(DuplicateCorpus(sourceLanguage, targetLanguage))
    else if sourceLanguage in suffixes then Success(suffixes[sourceLanguage := bySource[targetLanguage := sa]])
    else Success(suffixes)
  }

  /** The first read of a new source language leaves the store empty, so a
      second read of the same pair is accepted as well. */
  lemma ReadDropsNewSourceLanguage(sa: SuffixArray, other: SuffixArray)
    ensures Read(map[], "en", "es", sa) == Success(map[])
    ensures Read(map[], "en", "es", other).Success?
    ensures !Registered(Read(map[], "en", "es", sa).value, "en", "es")
  {
  }

  /** Registration as intended: insert the array under the pair, creating the
      source language's map when it is missing; a duplicate pair is rejected. */
  function Register(suffixes: Store, sourceLanguage: string, targetLanguage: string, sa: SuffixArray): (r: Result<Store>)
    ensures r.Failure? <==> Registered(suffixes, sourceLanguage, targetLanguage)
    ensures r.Failure? ==> r.error == DuplicateCorpus(sourceLanguage, targetLanguage)
    ensures r.Success? ==> r.value.Keys == suffixes.Keys + {sourceLanguage}
    ensures r.Success? ==> Registered(r.value, sourceLanguage, targetLanguage)
    ensures r.Success? ==> r.value[sourceLanguage][targetLanguage] == sa
    ensures r.Success? ==> forall s, t :: Registered(suffixes, s, t) ==>
              Registered(r.value, s, t) && r.value[s][t] == suffixes[s][t]
    ensures r.Success? ==> forall s, t :: Registered(r.value, s, t) ==>
              Registered(suffixes, s, t) || (s == sourceLanguage && t == targetLanguage)
  {
    var bySource := if sourceLanguage in suffixes then suffixes[sourceLanguage] else map[];
    if targetLanguage in bySource then Failure(DuplicateCorpus(sourceLanguage, targetLanguage))
    else Success(suffixes[sourceLanguage := bySource[targetLanguage := sa]])
  }

  /** A second registration for a pair fails and leaves the first array in place. */
  lemma RegisterTwiceFails(suffixes: Store, source: string, target: string, first: SuffixArray, second: SuffixArray)
    requires Register(suffixes, source, target, first).Success?
    ensures var s1 := Register(suffixes, source, target, first).value;
      && Register(s1, source, target, second) == Failure(DuplicateCorpus(source, target))
      && s1[source][target] == first
  {
  }

  /** Once the source language has a map, the original registration and the
      intended one agree: the two differ only on a new source language. */
  lemma ReadAgreesWithRegister(suffixes: Store, source: string, target: string, sa: SuffixArray)
    ensures source in suffixes <==> Read(suffixes, source, target, sa) == Register(suffixes, source, target, sa)
  {
    if source !in suffixes {
      var r := Register(suffixes, source, target, sa);
      assert source in r.value.Keys;
    }
  }

  /** The position of the first occurrence of `w` in the vocabulary, or -1. */
  function IndexOf(vocabulary: seq<string>, w: string): (r: int)
    ensures -1 <= r < |vocabulary|
    ensures r == -1 <==> w !in vocabulary
    ensures r >= 0 ==> vocabulary[r] == w && w !in vocabulary[..r]
  {
    if |vocabulary| == 0 then -1
    else if vocabulary[0] == w then 0
    else
      var k := IndexOf(vocabulary[1..], w);
      assert k >= 0 ==> vocabulary[..k + 1] == [vocabulary[0]] + vocabulary[1..][..k];
      if k == -1 then -1 else k + 1
  }

  /** The query phrase as word ids, one per word: -1 for a word outside the
      vocabulary, otherwise the id naming that word. */
  function PhraseIds(words: seq<string>, vocabulary: seq<string>): (r: seq<int>)
    ensures |r| == |words|
    ensures forall i :: 0 <= i < |r| ==> (r[i] == -1 <==> words[i] !in vocabulary)
    ensures forall i :: 0 <= i < |r| && r[i] != -1 ==> 0 <= r[i] < |vocabulary| && vocabulary[r[i]] == words[i]
  {
    seq(|words|, i requires 0 <= i < |words| => IndexOf(vocabulary, words[i]))
  }

  /** Every id of the rule names a vocabulary entry. */
  predicate InVocabulary(rule: Rule, vocabulary: seq<string>) {
    forall i :: 0 <= i < |rule| ==> 0 <= rule[i] < |vocabulary|
  }

  /** Every rule's ids name vocabulary entries. */
  predicate AllInVocabulary(rules: seq<Rule>, vocabulary: seq<string>) {
    forall k :: 0 <= k < |rules| ==> InVocabulary(rules[k], vocabulary)
  }

  /** The vocabulary words of a rule's target ids, in order. */
  function TargetWords(rule: Rule, vocabulary: seq<string>): (r: seq<string>)
    requires InVocabulary(rule, vocabulary)
    ensures |r| == |rule|
    ensures forall i :: 0 <= i < |rule| ==> r[i] == vocabulary[rule[i]]
  {
    seq(|rule|, i requires 0 <= i < |rule| => vocabulary[rule[i]])
  }

  /** The target phrase of a rule: its words joined by single spaces. */
  function TargetOf(rule: Rule, vocabulary: seq<string>): (r: string)
    requires InVocabulary(rule, vocabulary)
    ensures |rule| == 0 ==> |r| == 0
    ensures |rule| == 1 ==> r == vocabulary[rule[0]]
  {
    Text.Join(TargetWords(rule, vocabulary), ' ')
  }

  /** When no word of the rule contains a space, splitting its target phrase
      at spaces gives back one field per id, field i being word `rule[i]`. */
  lemma TargetOfSplits(rule: Rule, vocabulary: seq<string>)
    requires InVocabulary(rule, vocabulary)
    requires |rule| > 0
    requires forall i :: 0 <= i < |rule| ==> ' ' !in vocabulary[rule[i]]
    ensures |Text.Split(TargetOf(rule, vocabulary), ' ')| == |rule|
    ensures forall i :: 0 <= i < |rule| ==> Text.Split(TargetOf(rule, vocabulary), ' ')[i] == vocabulary[rule[i]]
  {
    Text.SplitJoin(TargetWords(rule, vocabulary), ' ');
  }

  /** When every word of the rule is non-empty and has only characters above
      U+0020, its target phrase read back as a query gives the same words. */
  lemma TargetOfReadsBack(rule: Rule, vocabulary: seq<string>)
    requires InVocabulary(rule, vocabulary)
    requires |rule| > 0
    requires forall i :: 0 <= i < |rule| ==> Text.Visible(vocabulary[rule[i]])
    ensures Text.Words(TargetOf(rule, vocabulary)) == TargetWords(rule, vocabulary)
  {
    Text.WordsJoin(TargetWords(rule, vocabulary));
  }

  /** The rules extracted from every sample, sample by sample. */
  function ExtractedRules(tk: Toolkit, sa: SuffixArray, samples: seq<QueryResult>, phraseLength: nat): (r: seq<Rule>)
    ensures forall s, rule :: s in samples && rule in tk.extractRules(sa, s, phraseLength, MaxTargetPhrase) ==> rule in r
    ensures forall rule :: rule in r ==>
              exists s :: s in samples && rule in tk.extractRules(sa, s, phraseLength, MaxTargetPhrase)
    ensures |samples| == 1 ==> r == tk.extractRules(sa, samples[0], phraseLength, MaxTargetPhrase)
  {
    if |samples| == 0 then []
    else
      var first := tk.extractRules(sa, samples[0], phraseLength, MaxTargetPhrase);
      var rest := ExtractedRules(tk, sa, samples[1..], phraseLength);
      assert forall s :: s in samples ==> s == samples[0] || s in samples[1..];
      first + rest
  }

  /** Flattening keeps sample order: the rules of two runs of samples are the
      rules of the first run followed by those of the second. */
  lemma {:induction false} ExtractedRulesAppend(tk: Toolkit, sa: SuffixArray, a: seq<QueryResult>, b: seq<QueryResult>, phraseLength: nat)
    ensures ExtractedRules(tk, sa, a + b, phraseLength) ==
              ExtractedRules(tk, sa, a, phraseLength) + ExtractedRules(tk, sa, b, phraseLength)
    decreases |a|
  {
    if |a| == 0 {
      assert a + b == b;
    } else {
      assert (a + b)[0] == a[0];
      assert (a + b)[1..] == a[1..] + b;
      ExtractedRulesAppend(tk, sa, a[1..], b, phraseLength);
    }
  }

  /** The rules extracted for a query text from one suffix array: the query
      is read as `Text.Words` reads it, its words are mapped to ids, at most
      `MaxSamples` occurrences of that phrase are sampled, and the rules of
      every sample are collected, extraction being told the phrase's length
      in words. */
  function QueryRules(text: string, sa: SuffixArray, tk: Toolkit): (r: seq<Rule>)
    ensures var words := Text.Words(text);
            var samples := tk.sample(sa, PhraseIds(words, sa.vocabulary), MaxSamples);
            && r == ExtractedRules(tk, sa, samples, |words|)
            && (forall rule :: rule in r <==>
                  exists s :: s in samples && rule in tk.extractRules(sa, s, |words|, MaxTargetPhrase))
            && (|samples| == 0 ==> r == [])
  {
    var words := Text.Words(text);
    var phrase := PhraseIds(words, sa.vocabulary);
    var samples := tk.sample(sa, phrase, MaxSamples);
    ExtractedRules(tk, sa, samples, |words|)
  }

  /** Characters at or below U+0020 around a query do not change its rules:
      `trim` removes them before the split. */
  lemma QueryRulesFramed(pre: string, w: string, post: string, sa: SuffixArray, tk: Toolkit)
    requires Text.Blank(pre) && Text.Blank(post)
    requires |w| > 0 && w[0] > ' ' && w[|w| - 1] > ' '
    ensures QueryRules(pre + w + post, sa, tk) == QueryRules(w, sa, tk)
  {
    Text.WordsFramed(pre, w, post);
    Text.WordsOfTrimmed(w);
  }

  /** The target phrase of every rule, in rule order. */
  function Targets(rules: seq<Rule>, vocabulary: seq<string>): (r: seq<string>)
    requires AllInVocabulary(rules, vocabulary)
    ensures |r| == |rules|
    ensures forall k :: 0 <= k < |rules| ==> r[k] == TargetOf(rules[k], vocabulary)
  {
    seq(|rules|, k requires 0 <= k < |rules| => TargetOf(rules[k], vocabulary))
  }

  /** A string is a target exactly when it is the target phrase of some rule. */
  lemma TargetsMembers(rules: seq<Rule>, vocabulary: seq<string>)
    requires AllInVocabulary(rules, vocabulary)
    ensures forall t :: t in Targets(rules, vocabulary) <==>
              exists k :: 0 <= k < |rules| && TargetOf(rules[k], vocabulary) == t
  {
    var targets := Targets(rules, vocabulary);
    forall t | t in targets
      ensures exists k :: 0 <= k < |rules| && TargetOf(rules[k], vocabulary) == t
    {
      var k :| 0 <= k < |targets| && targets[k] == t;
      assert TargetOf(rules[k], vocabulary) == t;
    }
  }

  /** `r` counts the occurrences of `keys`: its keys are the distinct keys,
      each with its multiplicity, which is at least 1. */
  predicate CountsOf(r: map<string, nat>, keys: seq<string>) {
    && r.Keys == (set k | k in keys)
    && forall k :: k in r ==> r[k] == multiset(keys)[k] && r[k] >= 1
  }

  /** One more occurrence of `key` in a count map. */
  function Bump(counts: map<string, nat>, key: string): map<string, nat> {
    counts[key := (if key in counts then counts[key] else 0) + 1]
  }

  /** Bumping one entry adds one to the total. */
  lemma BumpSum(counts: map<string, nat>, key: string)
    ensures MapSum.Sum(Bump(counts, key)) == MapSum.Sum(counts) + 1
  {
    MapSum.SumUpdate(counts, key, (if key in counts then counts[key] else 0) + 1);
  }

  /** Counts how often each key occurs: `groupingBy(identity, counting())`. */
  function GroupCount(keys: seq<string>): (r: map<string, nat>)
    ensures CountsOf(r, keys)
    ensures MapSum.Sum(r) == |keys|
  {
    if |keys| == 0 then map[]
    else
      var rest := GroupCount(keys[..|keys| - 1]);
      GroupCountSnoc(keys, rest);
      BumpSum(rest, keys[|keys| - 1]);
      Bump(rest, keys[|keys| - 1])
  }

  /** The step of `GroupCount`: counting one more key bumps its entry. */
  lemma GroupCountSnoc(keys: seq<string>, rest: map<string, nat>)
    requires |keys| > 0
    requires CountsOf(rest, keys[..|keys| - 1])
    ensures CountsOf(Bump(rest, keys[|keys| - 1]), keys)
  {
    var init, last := keys[..|keys| - 1], keys[|keys| - 1];
    assert keys == init + [last];
    assert multiset(keys) == multiset(init) + multiset{last};
    assert last !in rest ==> multiset(init)[last] == 0;
    assert (set k | k in keys) == (set k | k in init) + {last};
  }

  /** Grouping depends only on which keys occur how often, not on their order. */
  lemma {:induction false} GroupCountPermutation(a: seq<string>, b: seq<string>)
    requires multiset(a) == multiset(b)
    ensures GroupCount(a) == GroupCount(b)
  {
    var ga, gb := GroupCount(a), GroupCount(b);
    forall k
      ensures k in a <==> k in b
    {
      assert k in a <==> k in multiset(a);
      assert k in b <==> k in multiset(b);
    }
    assert ga.Keys == gb.Keys;
  }

  /** The counts of the target phrases of a list of rules. A rule whose ids
      fall outside the vocabulary cannot be turned into text and fails the count. */
  function CountRules(rules: seq<Rule>, vocabulary: seq<string>): (r: Result<map<string, nat>>)
    ensures r.Success? <==> AllInVocabulary(rules, vocabulary)
    ensures r.Failure? ==> r.error == UnknownWordId
    ensures r.Success? ==> forall t :: t in r.value <==> exists k :: 0 <= k < |rules| && TargetOf(rules[k], vocabulary) == t
    ensures r.Success? ==> forall t :: t in r.value ==> r.value[t] == multiset(Targets(rules, vocabulary))[t] >= 1
    ensures r.Success? ==> MapSum.Sum(r.value) == |rules|
  {
    if AllInVocabulary(rules, vocabulary) then
      TargetsMembers(rules, vocabulary);
      Success(GroupCount(Targets(rules, vocabulary)))
    else Failure(UnknownWordId)
  }

  /** The counts of the target phrases extracted for a query from one array:
      each target phrase of an extracted rule, with how many rules give it. */
  function CountAll(text: string, sa: SuffixArray, tk: Toolkit): (r: Result<map<string, nat>>)
    ensures var rules := QueryRules(text, sa, tk);
      && (r.Success? <==> AllInVocabulary(rules, sa.vocabulary))
      && (r.Failure? ==> r.error == UnknownWordId)
      && (r.Success? ==> forall t :: t in r.value <==> exists k :: 0 <= k < |rules| && TargetOf(rules[k], sa.vocabulary) == t)
      && (r.Success? ==> MapSum.Sum(r.value) == |rules|)
  {
    CountRules(QueryRules(text, sa, tk), sa.vocabulary)
  }

  /** The translation frequencies of a source expression: the zero function
      when its language has no arrays, otherwise the counts of every target
      language registered under it. */
  function TranslationFrequencies(suffixes: Store, source: Expression, tk: Toolkit): (r: Result<Frequencies>)
    ensures source.language !in suffixes ==> r == Success(ZeroFrequency)
    ensures source.language in suffixes ==>
              (r.Failure? <==> exists t :: t in suffixes[source.language] &&
                                 CountAll(source.text, suffixes[source.language][t], tk).Failure?)
    ensures source.language in suffixes && r.Failure? ==>
              exists t :: t in suffixes[source.language] &&
                CountAll(source.text, suffixes[source.language][t], tk) == Failure(r.error)
    ensures source.language in suffixes && r.Success? ==>
              && r.value.Counted?
              && r.value.counts.Keys == suffixes[source.language].Keys
              && forall t :: t in r.value.counts ==>
                   CountAll(source.text, suffixes[source.language][t], tk) == Success(r.value.counts[t])
  {
    if source.language !in suffixes then Success(ZeroFrequency)
    else
      var counted := CountEach(suffixes[source.language], sa => CountAll(source.text, sa, tk));
      if counted.Failure? then Failure(counted.error) else Success(Counted(counted.value))
  }

  /** Counts every array of a target-language map with `count`: one count map
      per target language, or a failure when any array's count fails. */
  function CountEach(arrays: map<string, SuffixArray>, count: SuffixArray -> Result<map<string, nat>>): (r: Result<map<string, map<string, nat>>>)
    ensures r.Failure? <==> exists t :: t in arrays && count(arrays[t]).Failure?
    ensures r.Failure? ==> r.error == UnknownWordId
    ensures r.Success? ==>
              && r.value.Keys == arrays.Keys
              && forall t :: t in r.value ==> count(arrays[t]) == Success(r.value[t])
  {
    if exists t :: t in arrays && count(arrays[t]).Failure? then Failure(UnknownWordId)
    else Success(map t | t in arrays :: count(arrays[t]).value)
  }

  /** A toolkit that samples nothing gives every registered target language
      an empty count. */
  lemma NoSamplesNoCounts(suffixes: Store, source: Expression, tk: Toolkit)
    requires source.language in suffixes
    requires forall sa, phrase, n :: |tk.sample(sa, phrase, n)| == 0
    ensures var r := TranslationFrequencies(suffixes, source, tk);
      && r.Success? && r.value.Counted?
      && r.value.counts.Keys == suffixes[source.language].Keys
      && forall t :: t in r.value.counts ==> |r.value.counts[t]| == 0
  {
    var arrays := suffixes[source.language];
    forall t | t in arrays
      ensures CountAll(source.text, arrays[t], tk) == Success(map[])
    {
      var rules := QueryRules(source.text, arrays[t], tk);
      assert |rules| == 0;
      var c := CountAll(source.text, arrays[t], tk);
      assert c.Success?;
      assert c.value.Keys == {};
    }
  }

  /** Concordance examples are not provided by this corpus: always empty. */
  function Examples(query: string, source: string, target: string, max: int): (r: seq<AlignedSentence>)
    ensures |r| == 0
  {
    []
  }
}

=== FILE: corpus.dfy ===
/** The positional index of an indexed corpus: tokenized lines and, for every
    word, the list of (line, position) pairs where it occurs. */
module PositionalIndex {
  import MapSum

  /** An occurrence: line index and token position within that line. */
  type Posting = (nat, nat)

  /** Occurrences of one word, in the order they were indexed. */
  type PostingList = seq<Posting>

  /** Word to posting list; a word is a key only once it has occurred. */
  type Index = map<string, PostingList>

  /** The corpus state: the tokenized lines, in input order, and their index. */
  datatype Corpus = Corpus(lines: seq<seq<string>>, postings: Index)

  /** Lexicographic order on postings: line first, then position. */
  predicate Before(a: Posting, b: Posting) {
    a.0 < b.0 || (a.0 == b.0 && a.1 < b.1)
  }

  /** Word `w` is the token at position `j` of line `i`. */
  predicate Occurs(lines: seq<seq<string>>, w: string, i: nat, j: nat) {
    i < |lines| && j < |lines[i]| && lines[i][j] == w
  }

  /** Every position where `w` occurs in `lines`. */
  ghost function Occurrences(lines: seq<seq<string>>, w: string): set<Posting> {
    set i: nat, j: nat | i < |lines| && j < |lines[i]| && lines[i][j] == w :: (i, j)
  }

  /** Every word that occurs somewhere in `lines`. */
  ghost function WordsOf(lines: seq<seq<string>>): set<string> {
    set i: nat, j: nat | i < |lines| && j < |lines[i]| :: lines[i][j]
  }

  /** The number of tokens in `lines`. */
  function TokenCount(lines: seq<seq<string>>): nat {
    if |lines| == 0 then 0 else TokenCount(lines[..|lines| - 1]) + |lines[|lines| - 1]|
  }

  /** Strictly increasing in (line, position) order. */
  ghost predicate Sorted(l: PostingList) {
    forall a, b :: 0 <= a < b < |l| ==> Before(l[a], l[b])
  }

  /** The posting list of `w`, or the empty list when `w` has none. */
  function Lookup(p: Index, w: string): PostingList {
    if w in p then p[w] else []
  }

  /** Posting-list length per word. */
  ghost function Lengths(p: Index): map<string, nat> {
    map w | w in p :: |p[w]|
  }

  /** `p` holds exactly the occurrences of `lines` that come before (i, j):
      each list is non-empty and sorted, every posting is a real occurrence
      (soundness), every earlier occurrence is posted (completeness), and the
      list lengths add up to the number of tokens indexed so far. */
  ghost predicate IndexedUpTo(p: Index, lines: seq<seq<string>>, i: nat, j: nat) {
    && i <= |lines|
    && (forall w :: w in p ==> |p[w]| > 0 && Sorted(p[w]))
    && (forall w, k :: w in p && 0 <= k < |p[w]| ==>
          Occurs(lines, w, p[w][k].0, p[w][k].1) && Before(p[w][k], (i, j)))
    && (forall a: nat, b: nat :: a < |lines| && b < |lines[a]| && Before((a, b), (i, j)) ==>
          lines[a][b] in p && (a, b) in p[lines[a][b]])
    && MapSum.Sum(Lengths(p)) == TokenCount(lines[..i]) + j
  }

  /** The invariant of a corpus: every stored line is completely indexed. */
  ghost predicate Valid(c: Corpus) {
    IndexedUpTo(c.postings, c.lines, |c.lines|, 0)
  }

  /** `r` extends `p` by appending to posting lists and adding words. */
  ghost predicate Grows(p: Index, r: Index) {
    p.Keys <= r.Keys && forall w :: w in p ==> p[w] <= r[w]
  }

  /** Word `w` occurs in some line at index `i` or later. */
  ghost predicate OccursFrom(lines: seq<seq<string>>, w: string, i: nat) {
    exists a: nat, b: nat :: i <= a < |lines| && b < |lines[a]| && lines[a][b] == w
  }

  /** A freshly constructed corpus: no lines and no postings. */
  function NewCorpus(): (r: Corpus)
    ensures Valid(r)
    ensures r.lines == [] && r.postings == map[]
  {
    var r := Corpus([], map[]);
    assert Lengths(r.postings) == map[];
    r
  }

  /** Records that `word` occurs at (line, position): a word without a list
      gets a new one, otherwise the posting is appended to its list. */
  function IndexWord(p: Index, word: string, line: nat, position: nat): (r: Index)
    ensures r.Keys == p.Keys + {word}
    ensures word !in p ==> r[word] == [(line, position)]
    ensures word in p ==> r[word] == p[word] + [(line, position)]
    ensures forall w :: w != word ==> Lookup(r, w) == Lookup(p, w)
    ensures Grows(p, r)
  {
    var l := if word in p then p[word] else [];
    p[word := l + [(line, position)]]
  }

  /** Appending a posting that follows every posting of a sorted list keeps it sorted. */
  lemma AppendSorted(l: PostingList, x: Posting)
    requires Sorted(l)
    requires forall k :: 0 <= k < |l| ==> Before(l[k], x)
    ensures Sorted(l + [x])
  {
    var r := l + [x];
    forall a, b | 0 <= a < b < |r|
      ensures Before(r[a], r[b])
    {
      assert r[a] == l[a];
      if b < |l| {
        assert r[b] == l[b];
      }
    }
  }

  /** The structural part of the step: lists stay non-empty and sorted, and
      every posting is an occurrence before (i, j + 1). */
  lemma IndexWordSound(p: Index, lines: seq<seq<string>>, i: nat, j: nat)
    requires i < |lines| && j < |lines[i]|
    requires IndexedUpTo(p, lines, i, j)
    ensures var r := IndexWord(p, lines[i][j], i, j);
      && (forall w :: w in r ==> |r[w]| > 0 && Sorted(r[w]))
      && (forall w, k :: w in r && 0 <= k < |r[w]| ==>
            Occurs(lines, w, r[w][k].0, r[w][k].1) && Before(r[w][k], (i, j + 1)))
  {
    var w := lines[i][j];
    var r := IndexWord(p, w, i, j);
    var prev := Lookup(p, w);
    assert r[w] == prev + [(i, j)];
    forall k | 0 <= k < |prev|
      ensures Before(prev[k], (i, j))
    {
      assert prev[k] == p[w][k];
    }
    AppendSorted(prev, (i, j));
    forall x, k | x in r && 0 <= k < |r[x]|
      ensures Occurs(lines, x, r[x][k].0, r[x][k].1) && Before(r[x][k], (i, j + 1))
    {
      if x != w {
        assert r[x] == p[x];
      } else if k < |prev| {
        assert r[x][k] == p[x][k];
      }
    }
  }

  /** Every occurrence before (i, j + 1) is posted once (i, j) has been indexed. */
  lemma IndexWordComplete(p: Index, lines: seq<seq<string>>, i: nat, j: nat)
    requires i < |lines| && j < |lines[i]|
    requires forall a: nat, b: nat :: a < |lines| && b < |lines[a]| && Before((a, b), (i, j)) ==>
               lines[a][b] in p && (a, b) in p[lines[a][b]]
    ensures var r := IndexWord(p, lines[i][j], i, j);
      forall a: nat, b: nat :: a < |lines| && b < |lines[a]| && Before((a, b), (i, j + 1)) ==>
        lines[a][b] in r && (a, b) in r[lines[a][b]]
  {
    var w := lines[i][j];
    var r := IndexWord(p, w, i, j);
    forall a: nat, b: nat | a < |lines| && b < |lines[a]| && Before((a, b), (i, j + 1))
      ensures lines[a][b] in r && (a, b) in r[lines[a][b]]
    {
      var x := lines[a][b];
      if (a, b) == (i, j) {
        assert r[w][|Lookup(p, w)|] == (i, j);
      } else {
        assert (a, b) in p[x];
        assert p[x] <= r[x];
      }
    }
  }

  /** Indexing one token adds one to the total posting-list length. */
  lemma IndexWordSum(p: Index, w: string, i: nat, j: nat)
    ensures MapSum.Sum(Lengths(IndexWord(p, w, i, j))) == MapSum.Sum(Lengths(p)) + 1
  {
    var l := Lookup(p, w) + [(i, j)];
    LengthsUpdate(p, w, l);
    MapSum.SumUpdate(Lengths(p), w, |l|);
  }

  /** Replacing one list changes only that word's length. */
  lemma LengthsUpdate(p: Index, w: string, l: PostingList)
    ensures Lengths(p[w := l]) == Lengths(p)[w := |l|]
  {
    var a, b := Lengths(p[w := l]), Lengths(p)[w := |l|];
    assert a.Keys == b.Keys;
    forall x | x in a
      ensures a[x] == b[x]
    {
    }
  }

  /** Indexing the token at (i, j) extends the invariant from (i, j) to (i, j + 1). */
  lemma IndexWordStep(p: Index, lines: seq<seq<string>>, i: nat, j: nat)
    requires i < |lines| && j < |lines[i]|
    ensures IndexedUpTo(p, lines, i, j) ==> IndexedUpTo(IndexWord(p, lines[i][j], i, j), lines, i, j + 1)
  {
    if IndexedUpTo(p, lines, i, j) {
      IndexWordSound(p, lines, i, j);
      IndexWordComplete(p, lines, i, j);
      IndexWordSum(p, lines[i][j], i, j);
    }
  }

  /** Once line i is fully indexed, the invariant holds at the start of line i + 1. */
  lemma NextLine(p: Index, lines: seq<seq<string>>, i: nat)
    requires i < |lines|
    ensures IndexedUpTo(p, lines, i, |lines[i]|) ==> IndexedUpTo(p, lines, i + 1, 0)
  {
    if IndexedUpTo(p, lines, i, |lines[i]|) {
      assert lines[..i + 1][..i] == lines[..i];
      forall a: nat, b: nat | a < |lines| && b < |lines[a]| && Before((a, b), (i + 1, 0))
        ensures lines[a][b] in p && (a, b) in p[lines[a][b]]
      {
        assert Before((a, b), (i, |lines[i]|));
      }
    }
  }

  /** Appending lines keeps an index of the old lines valid up to the first new line. */
  lemma ExtendLines(p: Index, lines: seq<seq<string>>, more: seq<seq<string>>)
    ensures IndexedUpTo(p, lines, |lines|, 0) ==> IndexedUpTo(p, lines + more, |lines|, 0)
  {
    if IndexedUpTo(p, lines, |lines|, 0) {
      var all := lines + more;
      assert all[..|lines|] == lines;
      assert lines[..|lines|] == lines;
      forall w, k | w in p && 0 <= k < |p[w]|
        ensures Occurs(all, w, p[w][k].0, p[w][k].1)
      {
        assert Occurs(lines, w, p[w][k].0, p[w][k].1);
      }
      forall a: nat, b: nat | a < |all| && b < |all[a]| && Before((a, b), (|lines|, 0))
        ensures all[a][b] in p && (a, b) in p[all[a][b]]
      {
        assert all[a] == lines[a];
      }
    }
  }

  /** Indexes the tokens of line `i` from position `j` on, in position order. */
  function IndexTokens(p: Index, lines: seq<seq<string>>, i: nat, j: nat): (r: Index)
    requires i < |lines| && j <= |lines[i]|
    ensures IndexedUpTo(p, lines, i, j) ==> IndexedUpTo(r, lines, i, |lines[i]|)
    ensures Grows(p, r)
    ensures forall w :: w !in lines[i][j..] ==> Lookup(r, w) == Lookup(p, w)
    decreases |lines[i]| - j
  {
    if j == |lines[i]| then p
    else
      IndexWordStep(p, lines, i, j);
      var next := IndexWord(p, lines[i][j], i, j);
      var r := IndexTokens(next, lines, i, j + 1);
      assert forall w :: w !in lines[i][j..] ==> w != lines[i][j] && w !in lines[i][j + 1..];
      r
  }

  /** Indexes lines `i` onwards, line-major and position-minor. */
  function IndexLines(p: Index, lines: seq<seq<string>>, i: nat): (r: Index)
    requires i <= |lines|
    ensures IndexedUpTo(p, lines, i, 0) ==> IndexedUpTo(r, lines, |lines|, 0)
    ensures Grows(p, r)
    ensures forall w :: !OccursFrom(lines, w, i) ==> Lookup(r, w) == Lookup(p, w)
    decreases |lines| - i
  {
    if i == |lines| then p
    else
      var next := IndexTokens(p, lines, i, 0);
      NextLine(next, lines, i);
      var r := IndexLines(next, lines, i + 1);
      assert forall w :: !OccursFrom(lines, w, i) ==> w !in lines[i][0..] && !OccursFrom(lines, w, i + 1);
      r
  }

  /** The tokenized form of raw input lines, in input order. */
  function Tokenized(tokenize: string -> seq<string>, newLines: seq<string>): (r: seq<seq<string>>)
    ensures |r| == |newLines|
    ensures forall k :: 0 <= k < |newLines| ==> r[k] == tokenize(newLines[k])
  {
    seq(|newLines|, k requires 0 <= k < |newLines| => tokenize(newLines[k]))
  }

  /** A word in none of the new lines occurs nowhere from the first new line on. */
  lemma AbsentFromNewLines(lines: seq<seq<string>>, tokenize: string -> seq<string>, newLines: seq<string>)
    ensures forall w :: (forall k :: 0 <= k < |newLines| ==> w !in tokenize(newLines[k])) ==>
              !OccursFrom(lines + Tokenized(tokenize, newLines), w, |lines|)
  {
    var added := Tokenized(tokenize, newLines);
    var all := lines + added;
    forall w | OccursFrom(all, w, |lines|)
      ensures exists k :: 0 <= k < |newLines| && w in tokenize(newLines[k])
    {
      var a: nat, b: nat :| |lines| <= a < |all| && b < |all[a]| && all[a][b] == w;
      assert all[a] == added[a - |lines|];
      assert w in tokenize(newLines[a - |lines|]);
    }
  }

  /** Appends the tokenized input lines, numbering them from the current line
      count, and indexes every token of the new lines. */
  function AddLines(c: Corpus, tokenize: string -> seq<string>, newLines: seq<string>): (r: Corpus)
    ensures |r.lines| == |c.lines| + |newLines|
    ensures r.lines[..|c.lines|] == c.lines
    ensures forall k :: 0 <= k < |newLines| ==> r.lines[|c.lines| + k] == tokenize(newLines[k])
    ensures Valid(c) ==> Valid(r)
    ensures Grows(c.postings, r.postings)
    ensures forall w :: (forall k :: 0 <= k < |newLines| ==> w !in tokenize(newLines[k])) ==>
              Postings(r, w) == Postings(c, w)
  {
    var added := Tokenized(tokenize, newLines);
    var lines := c.lines + added;
    ExtendLines(c.postings, c.lines, added);
    var postings := IndexLines(c.postings, lines, |c.lines|);
    AbsentFromNewLines(c.lines, tokenize, newLines);
    Corpus(lines, postings)
  }

  /** The occurrences of `word` (the empty list when it never occurred), in
      (line, position) order. */
  function Postings(c: Corpus, word: string): (r: PostingList)
    ensures Valid(c) ==> Sorted(r)
    ensures Valid(c) ==> forall i: nat, j: nat :: (i, j) in r <==> Occurs(c.lines, word, i, j)
  {
    var r := Lookup(c.postings, word);
    assert Valid(c) ==> forall i: nat, j: nat :: Occurs(c.lines, word, i, j) ==> Before((i, j), (|c.lines|, 0));
    r
  }

  /** A sorted posting list has no repeated posting. */
  lemma {:induction false} SortedCard(l: PostingList)
    requires Sorted(l)
    ensures |(set x | x in l)| == |l|
  {
    if |l| > 0 {
      var init := l[..|l| - 1];
      var last := l[|l| - 1];
      assert Sorted(init);
      SortedCard(init);
      assert (set x | x in l) == (set x | x in init) + {last};
      assert last !in init by {
        forall k | 0 <= k < |init|
          ensures init[k] != last
        {
          assert Before(l[k], l[|l| - 1]);
        }
      }
    }
  }

  /** The number of occurrences of `word`: zero for a word never seen. */
  function Count(c: Corpus, word: string): (r: nat)
    ensures Valid(c) ==> r == |Occurrences(c.lines, word)|
  {
    var l := Postings(c, word);
    assert Valid(c) ==> (set x | x in l) == Occurrences(c.lines, word) && |(set x | x in l)| == |l| by {
      if Valid(c) {
        SortedCard(l);
      }
    }
    |l|
  }

  /** The vocabulary: the words that occur in some stored line. */
  function Vocab(c: Corpus): (r: set<string>)
    ensures Valid(c) ==> r == WordsOf(c.lines)
  {
    var r := c.postings.Keys;
    assert Valid(c) ==> r == WordsOf(c.lines) by {
      if Valid(c) {
        forall w | w in r
          ensures w in WordsOf(c.lines)
        {
          assert Occurs(c.lines, w, c.postings[w][0].0, c.postings[w][0].1);
        }
        forall w | w in WordsOf(c.lines)
          ensures w in r
        {
          var i: nat, j: nat :| i < |c.lines| && j < |c.lines[i]| && c.lines[i][j] == w;
          assert Before((i, j), (|c.lines|, 0));
        }
      }
    }
    r
  }

  /** A word that occurs in no stored line has the empty posting list and count 0. */
  lemma UnseenWord(c: Corpus, w: string)
    requires Valid(c)
    requires w !in WordsOf(c.lines)
    ensures Postings(c, w) == [] && Count(c, w) == 0
  {
    assert w !in Vocab(c);
  }

  /** The counts of the vocabulary add up to the number of stored tokens. */
  lemma CountsSumToTokens(c: Corpus)
    requires Valid(c)
    ensures MapSum.Sum(map w | w in Vocab(c) :: |Postings(c, w)|) == TokenCount(c.lines)
  {
    assert (map w | w in Vocab(c) :: |Postings(c, w)|) == Lengths(c.postings);
    assert c.lines[..|c.lines|] == c.lines;
  }

  /** Indexing a longer list of lines from `i` is indexing a prefix of it from
      `i` and then the rest. */
  lemma {:induction false} IndexLinesPrefix(p: Index, short: seq<seq<string>>, long: seq<seq<string>>, i: nat)
    requires short <= long && i <= |short|
    ensures IndexLines(p, long, i) == IndexLines(IndexLines(p, short, i), long, |short|)
    decreases |short| - i
  {
    if i < |short| {
      assert short[i] == long[i];
      IndexTokensSameLine(p, short, long, i, 0);
      IndexLinesPrefix(IndexTokens(p, short, i, 0), short, long, i + 1);
    }
  }

  /** Indexing a line depends only on that line's tokens. */
  lemma {:induction false} IndexTokensSameLine(p: Index, l1: seq<seq<string>>, l2: seq<seq<string>>, i: nat, j: nat)
    requires i < |l1| && i < |l2| && l1[i] == l2[i] && j <= |l1[i]|
    ensures IndexTokens(p, l1, i, j) == IndexTokens(p, l2, i, j)
    decreases |l1[i]| - j
  {
    if j < |l1[i]| {
      IndexTokensSameLine(IndexWord(p, l1[i][j], i, j), l1, l2, i, j + 1);
    }
  }

  /** Adding lines in two batches gives the same corpus as adding them at once. */
  lemma AddLinesBatching(c: Corpus, tokenize: string -> seq<string>, first: seq<string>, second: seq<string>)
    ensures AddLines(AddLines(c, tokenize, first), tokenize, second) == AddLines(c, tokenize, first + second)
  {
    var t1 := Tokenized(tokenize, first);
    var t2 := Tokenized(tokenize, second);
    var t12 := Tokenized(tokenize, first + second);
    assert t12 == t1 + t2;
    var l1 := c.lines + t1;
    var l2 := l1 + t2;
    assert c.lines + t12 == l2;
    var p1 := IndexLines(c.postings, l1, |c.lines|);
    assert AddLines(c, tokenize, first) == Corpus(l1, p1);
    assert AddLines(Corpus(l1, p1), tokenize, second) == Corpus(l2, IndexLines(p1, l2, |l1|));
    assert AddLines(c, tokenize, first + second) == Corpus(l2, IndexLines(c.postings, l2, |c.lines|));
    IndexLinesPrefix(c.postings, l1, l2, |c.lines|);
  }
}

=== FILE: map_sum.dfy ===
/** Sums of the values of a finite map, used to state that per-key counts
    add up to a total (posting-list lengths to the number of tokens, grouped
    rule counts to the number of extracted rules). */
module MapSum {

  /** Some element of a non-empty set. */
  ghost function Pick<K>(s: set<K>): K
    requires s != {}
  {
    var k :| k in s; k
  }

  /** The sum of all values of `m`. */
  ghost function Sum<K>(m: map<K, nat>): nat
    decreases |m|
  {
    if |m| == 0 then 0
    else
      var k := Pick(m.Keys);
      assert (m - {k}).Keys == m.Keys - {k};
      m[k] + Sum(m - {k})
  }

  /** The sum does not depend on the order keys are taken in: any key can be split off. */
  lemma {:induction false} SumRemove<K>(m: map<K, nat>, k: K)
    requires k in m
    ensures Sum(m) == m[k] + Sum(m - {k})
    decreases |m|
  {
    var p := Pick(m.Keys);
    assert (m - {p}).Keys == m.Keys - {p};
    assert (m - {k}).Keys == m.Keys - {k};
    if p != k {
      SumRemove(m - {p}, k);
      SumRemove(m - {k}, p);
      assert m - {p} - {k} == m - {k} - {p};
    }
  }

  /** Overwriting one entry changes the sum by the difference of the two values. */
  lemma SumUpdate<K>(m: map<K, nat>, k: K, v: nat)
    ensures Sum(m[k := v]) + (if k in m then m[k] else 0) == Sum(m) + v
  {
    SumRemove(m[k := v], k);
    assert m[k := v] - {k} == m - {k};
    if k in m {
      SumRemove(m, k);
    } else {
      assert m - {k} == m;
    }
  }
}

=== FILE: seqs.dfy ===
/** Generic facts about sequence concatenation and slicing, used as steps
    in the string proofs. */
module Seqs {

  /** A non-empty sequence is its head followed by its tail. */
  lemma ConsTail<T>(s: seq<T>)
    requires |s| > 0
    ensures [s[0]] + s[1..] == s
  {
  }

  /** Taking the head off a non-empty prefix of a concatenation. */
  lemma HeadAppend<T>(a: seq<T>, rest: seq<T>)
    requires |a| > 0
    ensures a + rest == [a[0]] + (a[1..] + rest)
    ensures (a + rest)[0] == a[0]
  {
  }

  /** An empty sequence is a left unit of concatenation. */
  lemma EmptyAppend<T>(x: seq<T>, y: seq<T>)
    requires |x| == 0
    ensures x + y == y
  {
  }

  /** Concatenation is associative. */
  lemma Assoc<T>(x: seq<T>, y: seq<T>, z: seq<T>)
    ensures x + y + z == x + (y + z)
  {
  }

  /** Dropping part of the first operand of a concatenation. */
  lemma DropAppend<T>(a: seq<T>, rest: seq<T>, n: nat)
    requires n <= |a|
    ensures (a + rest)[n..] == a[n..] + rest
  {
  }

  /** Moving the head of the middle operand to the left. */
  lemma Regroup<T>(x: seq<T>, m: seq<T>, y: seq<T>)
    requires |m| > 0
    ensures x + m + y == x + [m[0]] + (m[1..] + y)
  {
  }

  /** Two singletons make a pair. */
  lemma PairAppend<T>(a: T, b: T)
    ensures [a] + [b] == [a, b]
  {
  }
}

=== FILE: text.dfy ===
/** The string operations the concordance relies on: Java's `String.trim`,
    splitting on runs of the regular-expression class `\s`, `String.join`
    with a one-character separator, and an exact split that is its inverse. */
module Text {
  import Seqs

  /** Characters of the regular-expression class `\s`: space, tab, line feed,
      vertical tab, form feed and carriage return. */
  predicate IsSpace(c: char) {
    c == ' ' || c == '\t' || c == '\n' || c == '\U{B}' || c == '\U{C}' || c == '\r'
  }

  /** No character of `s` is in `\s`. */
  predicate NoSpace(s: string) {
    forall k :: 0 <= k < |s| ==> !IsSpace(s[k])
  }

  /** Every word is non-empty and free of `\s` characters. */
  predicate CleanWords(ws: seq<string>) {
    forall i :: 0 <= i < |ws| ==> |ws[i]| > 0 && NoSpace(ws[i])
  }

  lemma CleanCons(w: string, rest: seq<string>)
    requires |w| > 0 && NoSpace(w) && CleanWords(rest)
    ensures CleanWords([w] + rest)
  {
    var ws := [w] + rest;
    forall i | 0 <= i < |ws|
      ensures |ws[i]| > 0 && NoSpace(ws[i])
    {
      if i > 0 {
        assert ws[i] == rest[i - 1];
      }
    }
  }

  lemma CleanTail(ws: seq<string>)
    requires |ws| > 0 && CleanWords(ws)
    ensures |ws[0]| > 0 && NoSpace(ws[0]) && CleanWords(ws[1..])
  {
    forall i | 0 <= i < |ws| - 1
      ensures |ws[1..][i]| > 0 && NoSpace(ws[1..][i])
    {
      assert ws[1..][i] == ws[i + 1];
    }
  }

  /** Every character of `s` is blank, that is at or below U+0020:
      `String.trim` empties it. */
  predicate Blank(s: string) {
    forall k :: 0 <= k < |s| ==> s[k] <= ' '
  }

  /** A non-empty word of characters above U+0020 only. */
  predicate Visible(w: string) {
    |w| > 0 && forall k :: 0 <= k < |w| ==> w[k] > ' '
  }

  /** Removes leading characters at or below U+0020, as `String.trim` does. */
  function TrimStart(s: string): (r: string)
    ensures |r| <= |s| && r == s[|s| - |r|..]
    ensures forall k :: 0 <= k < |s| - |r| ==> s[k] <= ' '
    ensures |r| == 0 || r[0] > ' '
  {
    if |s| > 0 && s[0] <= ' ' then TrimStart(s[1..]) else s
  }

  /** Removes trailing characters at or below U+0020, as `String.trim` does. */
  function TrimEnd(s: string): (r: string)
    ensures |r| <= |s| && r == s[..|r|]
    ensures forall k :: |r| <= k < |s| ==> s[k] <= ' '
    ensures |r| == 0 || r[|r| - 1] > ' '
  {
    if |s| > 0 && s[|s| - 1] <= ' ' then TrimEnd(s[..|s| - 1]) else s
  }

  /** `r` is the slice of `s` starting at `a`, with only characters at or
      below U+0020 before and after it. */
  predicate BlankFramed(s: string, a: nat, r: string) {
    a + |r| <= |s| && r == s[a..a + |r|] && Blank(s[..a]) && Blank(s[a + |r|..])
  }

  /** `r` is some slice of `s` with only characters at or below U+0020
      before and after it. */
  predicate TrimmedFrom(s: string, r: string) {
    exists a: nat | a <= |s| :: BlankFramed(s, a, r)
  }

  /** The pieces of `String.trim`: stripping a blank prefix and then a blank
      suffix leaves a slice of `s` framed by blanks. */
  lemma TrimParts(s: string, t: string, r: string)
    requires |t| <= |s| && t == s[|s| - |t|..]
    requires forall k :: 0 <= k < |s| - |t| ==> s[k] <= ' '
    requires |r| <= |t| && r == t[..|r|]
    requires forall k :: |r| <= k < |t| ==> t[k] <= ' '
    ensures BlankFramed(s, |s| - |t|, r)
  {
    var a := |s| - |t|;
    forall k | 0 <= k < |r|
      ensures r[k] == s[a + k]
    {
      assert r[k] == t[k];
    }
    forall k | a + |r| <= k < |s|
      ensures s[k] <= ' '
    {
      assert s[k] == t[k - a];
    }
  }

  /** A framed slice that starts with a visible character leaves `s` not
      blank; an empty one leaves only the blank frame. */
  lemma FramedBlank(s: string, a: nat, r: string)
    requires BlankFramed(s, a, r)
    requires |r| == 0 || r[0] > ' '
    ensures |r| == 0 <==> Blank(s)
  {
    if |r| > 0 {
      assert r[0] == s[a + 0];
    }
  }

  /** Stripping a blank prefix, up to a visible character, and then a blank
      suffix leaves nothing exactly when `s` is blank, and otherwise a slice
      of `s` framed by blanks. */
  lemma TrimFacts(s: string, t: string, r: string)
    requires |t| <= |s| && t == s[|s| - |t|..]
    requires forall k :: 0 <= k < |s| - |t| ==> s[k] <= ' '
    requires |t| == 0 || t[0] > ' '
    requires |r| <= |t| && r == t[..|r|]
    requires forall k :: |r| <= k < |t| ==> t[k] <= ' '
    ensures |r| == 0 || r[0] > ' '
    ensures |r| == 0 <==> Blank(s)
    ensures TrimmedFrom(s, r)
  {
    TrimParts(s, t, r);
    assert |r| == 0 || r[0] == t[0];
    FramedBlank(s, |s| - |t|, r);
  }

  /** The properties of `String.trim`, stated about its two halves. */
  lemma TrimSpec(s: string)
    ensures var r := TrimEnd(TrimStart(s));
      && |r| <= |s|
      && (|r| == 0 || (r[0] > ' ' && r[|r| - 1] > ' '))
      && (|r| == 0 <==> Blank(s))
      && ((|s| == 0 || (s[0] > ' ' && s[|s| - 1] > ' ')) ==> r == s)
      && TrimmedFrom(s, r)
  {
    var t := TrimStart(s);
    var r := TrimEnd(t);
    TrimFacts(s, t, r);
    TrimStartKeeps(s);
    TrimEndKeeps(t);
  }

  /** A string that starts with a visible character has no leading blanks. */
  lemma TrimStartKeeps(s: string)
    ensures (|s| == 0 || s[0] > ' ') ==> TrimStart(s) == s
  {
  }

  /** A string that ends with a visible character has no trailing blanks. */
  lemma TrimEndKeeps(s: string)
    ensures (|s| == 0 || s[|s| - 1] > ' ') ==> TrimEnd(s) == s
  {
  }

  /** `String.trim`: both ends stripped of characters at or below U+0020. */
  function Trim(s: string): (r: string)
    ensures |r| <= |s|
    ensures |r| == 0 || (r[0] > ' ' && r[|r| - 1] > ' ')
    ensures |r| == 0 <==> Blank(s)
    ensures (|s| == 0 || (s[0] > ' ' && s[|s| - 1] > ' ')) ==> r == s
  {
    TrimSpec(s);
    TrimEnd(TrimStart(s))
  }

  /** What `String.trim` returns is a contiguous slice of its argument with
      only characters at or below U+0020 before and after it. Stated apart
      from `Trim` so that callers reasoning about `Trim` do not carry the
      quantified frame. */
  lemma TrimSlice(s: string)
    ensures TrimmedFrom(s, Trim(s))
  {
    TrimSpec(s);
  }

  /** Dropping a blank prefix in front of a visible character. */
  lemma {:induction false} TrimStartBlank(pre: string, rest: string)
    requires Blank(pre) && |rest| > 0 && rest[0] > ' '
    ensures TrimStart(pre + rest) == rest
    decreases |pre|
  {
    if |pre| == 0 {
      Seqs.EmptyAppend(pre, rest);
    } else {
      Seqs.HeadAppend(pre, rest);
      Seqs.DropAppend(pre, rest, 1);
      assert Blank(pre[1..]) by {
        forall k | 0 <= k < |pre| - 1
          ensures pre[1..][k] <= ' '
        {
          assert pre[1..][k] == pre[k + 1];
        }
      }
      TrimStartBlank(pre[1..], rest);
    }
  }

  /** Dropping a blank suffix behind a visible character. */
  lemma {:induction false} TrimEndBlank(rest: string, post: string)
    requires Blank(post) && |rest| > 0 && rest[|rest| - 1] > ' '
    ensures TrimEnd(rest + post) == rest
    decreases |post|
  {
    if |post| == 0 {
      assert rest + post == rest;
    } else {
      var s := rest + post;
      var shorter := post[..|post| - 1];
      assert s[|s| - 1] == post[|post| - 1];
      assert s[..|s| - 1] == rest + shorter;
      assert Blank(shorter) by {
        forall k | 0 <= k < |shorter|
          ensures shorter[k] <= ' '
        {
          assert shorter[k] == post[k];
        }
      }
      TrimEndBlank(rest, shorter);
    }
  }

  /** `String.trim` removes exactly a blank frame around a text that starts
      and ends with a visible character. */
  lemma TrimFrame(pre: string, w: string, post: string)
    requires Blank(pre) && Blank(post)
    requires |w| > 0 && w[0] > ' ' && w[|w| - 1] > ' '
    ensures Trim(pre + w + post) == w
  {
    Seqs.Assoc(pre, w, post);
    assert (w + post)[0] == w[0];
    TrimStartBlank(pre, w + post);
    TrimEndBlank(w, post);
  }

  /** The longest prefix of `s` without a `\s` character. */
  function TakeWord(s: string): (r: string)
    ensures |r| <= |s| && r == s[..|r|]
    ensures NoSpace(r)
    ensures |r| == |s| || IsSpace(s[|r|])
  {
    if |s| == 0 || IsSpace(s[0]) then [] else [s[0]] + TakeWord(s[1..])
  }

  /** `s` without its leading run of `\s` characters. */
  function DropSpaces(s: string): (r: string)
    ensures |r| <= |s| && r == s[|s| - |r|..]
    ensures forall k :: 0 <= k < |s| - |r| ==> IsSpace(s[k])
    ensures |r| == 0 || !IsSpace(r[0])
  {
    if |s| > 0 && IsSpace(s[0]) then DropSpaces(s[1..]) else s
  }

  /** The fields of `s`: its maximal runs of non-`\s` characters, in order.
      On a non-empty string that neither starts nor ends with a `\s`
      character this is what Java's `split("\\s+")` returns; on the empty
      string Java returns `[""]`, which `Words` accounts for. */
  function Fields(s: string): (r: seq<string>)
    ensures |s| == 0 ==> |r| == 0
    ensures |s| > 0 && !IsSpace(s[0]) ==> |r| > 0
    ensures CleanWords(r)
    decreases |s|
  {
    var d := DropSpaces(s);
    if |d| == 0 then []
    else
      var w := TakeWord(d);
      var rest := Fields(d[|w|..]);
      CleanCons(w, rest);
      [w] + rest
  }

  /** A leading `\s` character does not change the fields. */
  lemma FieldsSpaceCons(c: char, t: string)
    requires IsSpace(c)
    ensures Fields([c] + t) == Fields(t)
  {
    assert ([c] + t)[1..] == t;
    assert DropSpaces([c] + t) == DropSpaces(t);
  }

  /** A word followed by a `\s` character (or by nothing) ends there. */
  lemma {:induction false} TakeWordAppend(a: string, rest: string)
    requires |rest| == 0 || IsSpace(rest[0])
    ensures TakeWord(a + rest) == TakeWord(a)
    decreases |a|
  {
    if |a| == 0 {
      assert a + rest == rest;
    } else {
      assert (a + rest)[0] == a[0];
      assert (a + rest)[1..] == a[1..] + rest;
      TakeWordAppend(a[1..], rest);
    }
  }

  /** A string starting outside `\s` begins with its leading word as a field. */
  lemma FieldsUnfold(x: string)
    requires |x| > 0 && !IsSpace(x[0])
    ensures |TakeWord(x)| > 0
    ensures Fields(x) == [TakeWord(x)] + Fields(x[|TakeWord(x)|..])
  {
    assert DropSpaces(x) == x;
  }

  /** A `\s` character separates fields: the fields of `a + [c] + b` are the
      fields of `a` followed by the fields of `b`. With `Fields([]) == []` and
      `FieldsWord` this determines the fields of every string. */
  lemma {:induction false} FieldsSplitAt(a: string, c: char, b: string)
    requires IsSpace(c)
    ensures Fields(a + [c] + b) == Fields(a) + Fields(b)
    decreases |a|
  {
    if |a| == 0 {
      Seqs.Assoc(a, [c], b);
      Seqs.EmptyAppend(a, [c] + b);
      FieldsSpaceCons(c, b);
      Seqs.EmptyAppend(Fields(a), Fields(b));
    } else if IsSpace(a[0]) {
      FieldsSplitAt(a[1..], c, b);
      FieldsSplitSpace(a, c, b);
    } else {
      FieldsSplitAt(a[|TakeWord(a)|..], c, b);
      FieldsSplitWord(a, c, b);
    }
  }

  /** The step of `FieldsSplitAt` for a leading `\s` character. */
  lemma FieldsSplitSpace(a: string, c: char, b: string)
    requires IsSpace(c) && |a| > 0 && IsSpace(a[0])
    requires Fields(a[1..] + [c] + b) == Fields(a[1..]) + Fields(b)
    ensures Fields(a + [c] + b) == Fields(a) + Fields(b)
  {
    Seqs.Assoc(a, [c], b);
    Seqs.Assoc(a[1..], [c], b);
    Seqs.HeadAppend(a, [c] + b);
    FieldsSpaceCons(a[0], a[1..] + ([c] + b));
    Seqs.ConsTail(a);
    FieldsSpaceCons(a[0], a[1..]);
  }

  /** The step of `FieldsSplitAt` for a leading word. */
  lemma FieldsSplitWord(a: string, c: char, b: string)
    requires IsSpace(c) && |a| > 0 && !IsSpace(a[0])
    requires Fields(a[|TakeWord(a)|..] + [c] + b) == Fields(a[|TakeWord(a)|..]) + Fields(b)
    ensures Fields(a + [c] + b) == Fields(a) + Fields(b)
  {
    var w := TakeWord(a);
    var cb := [c] + b;
    var s := a + cb;
    Seqs.Assoc(a, [c], b);
    TakeWordAppend(a, cb);
    Seqs.HeadAppend(a, cb);
    FieldsUnfold(s);
    FieldsUnfold(a);
    Seqs.DropAppend(a, cb, |w|);
    Seqs.Assoc(a[|w|..], [c], b);
    Seqs.Assoc([w], Fields(a[|w|..]), Fields(b));
  }

  /** A string starting with a character above U+0020 has a first field,
      and that field is not empty. */
  lemma FieldsNonEmpty(s: string)
    requires |s| > 0 && s[0] > ' '
    ensures |Fields(s)| > 0 && |Fields(s)[0]| > 0
    ensures Fields(s) != [[]]
  {
    assert !IsSpace(s[0]);
    var r := Fields(s);
    CleanTail(r);
    var blank: seq<string> := [[]];
    assert |blank[0]| == 0;
  }

  /** `text.trim().split("\\s+")`: a text of characters at or below U+0020
      gives the single empty word; any other text gives the fields of its
      trimmed form, which are non-empty and free of `\s` characters. */
  function Words(text: string): (r: seq<string>)
    ensures |r| >= 1
    ensures Blank(text) <==> r == [[]]
    ensures !Blank(text) ==> CleanWords(r)
  {
    var t := Trim(text);
    if |t| == 0 then [[]]
    else
      FieldsNonEmpty(t);
      Fields(t)
  }

  /** `String.join` with a one-character separator: the strings in order,
      one separator between each two. */
  function Join(ws: seq<string>, sep: char): (r: string)
    ensures |ws| == 0 ==> |r| == 0
    ensures |ws| > 0 ==> |ws[0]| <= |r| && r[..|ws[0]|] == ws[0]
  {
    if |ws| == 0 then []
    else if |ws| == 1 then ws[0]
    else ws[0] + [sep] + Join(ws[1..], sep)
  }

  /** When no string contains the separator, a join of `n > 0` strings holds
      exactly `n - 1` separators. */
  lemma {:induction false} JoinSeparators(ws: seq<string>, sep: char)
    requires |ws| >= 1
    requires forall i :: 0 <= i < |ws| ==> sep !in ws[i]
    ensures multiset(Join(ws, sep))[sep] == |ws| - 1
    decreases |ws|
  {
    assert sep !in multiset(ws[0]);
    if |ws| > 1 {
      JoinSeparators(ws[1..], sep);
      assert Join(ws, sep) == ws[0] + [sep] + Join(ws[1..], sep);
    }
  }

  /** Splits `s` at every occurrence of `sep`, keeping empty fields. */
  function Split(s: string, sep: char): (r: seq<string>)
    ensures |r| >= 1
    ensures forall i :: 0 <= i < |r| ==> sep !in r[i]
  {
    if |s| == 0 then [[]]
    else
      var rest := Split(s[1..], sep);
      if s[0] == sep then [[]] + rest
      else [[s[0]] + rest[0]] + rest[1..]
  }

  lemma {:induction false} SplitWord(w: string, rest: string, sep: char)
    requires sep !in w
    ensures Split(w + rest, sep) == [w + Split(rest, sep)[0]] + Split(rest, sep)[1..]
    decreases |w|
  {
    if |w| > 0 {
      assert (w + rest)[1..] == w[1..] + rest;
      SplitWord(w[1..], rest, sep);
      assert [w[0]] + (w[1..] + Split(rest, sep)[0]) == w + Split(rest, sep)[0];
    } else {
      var r := Split(rest, sep);
      assert w + rest == rest;
      assert w + r[0] == r[0];
      assert r == [r[0]] + r[1..];
    }
  }

  /** Splitting a join gives back the joined strings when none contains the separator. */
  lemma {:induction false} SplitJoin(ws: seq<string>, sep: char)
    requires |ws| >= 1
    requires forall i :: 0 <= i < |ws| ==> sep !in ws[i]
    ensures Split(Join(ws, sep), sep) == ws
    decreases |ws|
  {
    if |ws| == 1 {
      SplitWord(ws[0], [], sep);
      assert Split([], sep) == [[]];
      assert ws[0] + [] == ws[0];
    } else {
      var tail := Join(ws[1..], sep);
      assert Join(ws, sep) == ws[0] + ([sep] + tail);
      SplitWord(ws[0], [sep] + tail, sep);
      assert ([sep] + tail)[1..] == tail;
      assert Split([sep] + tail, sep) == [[]] + Split(tail, sep);
      assert ws[0] + [] == ws[0];
      SplitJoin(ws[1..], sep);
      assert ws == [ws[0]] + ws[1..];
    }
  }

  /** A join starts with the first character of its first string and ends
      with the last character of its last string. */
  lemma {:induction false} JoinEnds(ws: seq<string>, sep: char)
    requires |ws| >= 1
    requires forall i :: 0 <= i < |ws| ==> |ws[i]| > 0
    ensures |Join(ws, sep)| > 0
    ensures Join(ws, sep)[0] == ws[0][0]
    ensures Join(ws, sep)[|Join(ws, sep)| - 1] == ws[|ws| - 1][|ws[|ws| - 1]| - 1]
    decreases |ws|
  {
    if |ws| > 1 {
      JoinEnds(ws[1..], sep);
    }
  }

  lemma {:induction false} TakeWordPrefix(w: string, rest: string)
    requires NoSpace(w)
    requires |rest| == 0 || IsSpace(rest[0])
    ensures TakeWord(w + rest) == w
    decreases |w|
  {
    if |w| == 0 {
      assert w + rest == rest;
    } else {
      assert (w + rest)[0] == w[0];
      assert (w + rest)[1..] == w[1..] + rest;
      TakeWordPrefix(w[1..], rest);
    }
  }

  /** A single non-empty word without `\s` characters is its own only
      field. */
  lemma FieldsWord(w: string)
    requires |w| > 0 && NoSpace(w)
    ensures Fields(w) == [w]
  {
    TakeWordPrefix(w, []);
    assert w + [] == w;
    assert |DropSpaces(w[|w|..])| == 0;
  }

  /** The first of several clean joined words is split off as one field. */
  lemma FieldsCons(ws: seq<string>)
    requires |ws| >= 2
    requires |ws[0]| > 0 && NoSpace(ws[0])
    ensures Fields(Join(ws, ' ')) == [ws[0]] + Fields(Join(ws[1..], ' '))
  {
    var s := Join(ws, ' ');
    var tail := Join(ws[1..], ' ');
    var sp := [' '] + tail;
    assert s == ws[0] + sp;
    TakeWordPrefix(ws[0], sp);
    assert s[|ws[0]|..] == sp;
    assert DropSpaces(sp) == DropSpaces(tail);
  }

  /** Splitting a join on runs of `\s` characters gives back the joined
      words when they are non-empty and free of `\s` characters. */
  lemma {:induction false} FieldsJoin(ws: seq<string>)
    requires |ws| >= 1
    requires CleanWords(ws)
    ensures Fields(Join(ws, ' ')) == ws
    decreases |ws|
  {
    CleanTail(ws);
    if |ws| == 1 {
      FieldsWord(ws[0]);
    } else {
      FieldsJoin(ws[1..]);
      FieldsCons(ws);
      Seqs.ConsTail(ws);
    }
  }

  /** A phrase built by joining visible words with single spaces splits back
      into exactly those words. */
  lemma WordsJoin(ws: seq<string>)
    requires |ws| >= 1
    requires forall i :: 0 <= i < |ws| ==> Visible(ws[i])
    ensures Words(Join(ws, ' ')) == ws
  {
    var s := Join(ws, ' ');
    var last := ws[|ws| - 1];
    forall i | 0 <= i < |ws|
      ensures |ws[i]| > 0 && NoSpace(ws[i])
    {
      VisibleNoSpace(ws[i]);
    }
    JoinEnds(ws, ' ');
    assert Visible(ws[0]) && Visible(last);
    assert s[0] == ws[0][0] && s[|s| - 1] == last[|last| - 1];
    WordsOfTrimmed(s);
    FieldsJoin(ws);
  }

  /** The words of a text with a blank frame are the fields of what the
      frame holds. */
  lemma WordsFramed(pre: string, w: string, post: string)
    requires Blank(pre) && Blank(post)
    requires |w| > 0 && w[0] > ' ' && w[|w| - 1] > ' '
    ensures Words(pre + w + post) == Fields(w)
  {
    TrimFrame(pre, w, post);
  }

  /** A visible word followed by a `\s` character is the first word of the
      text, and the rest are the fields of what follows. */
  lemma WordsAfter(x: string, c: char, y: string)
    requires Visible(x) && IsSpace(c)
    requires |y| > 0 && y[|y| - 1] > ' '
    ensures Words(x + [c] + y) == [x] + Fields(y)
  {
    var s := x + [c] + y;
    assert s[0] == x[0] && s[|s| - 1] == y[|y| - 1];
    WordsOfTrimmed(s);
    VisibleNoSpace(x);
    FieldsWord(x);
    FieldsSplitAt(x, c, y);
  }

  /** A visible word holds no `\s` character. */
  lemma VisibleNoSpace(w: string)
    requires Visible(w)
    ensures |w| > 0 && NoSpace(w)
  {
    forall k | 0 <= k < |w|
      ensures !IsSpace(w[k])
    {
      assert w[k] > ' ';
    }
  }

  /** A text that starts and ends with a visible character is not trimmed,
      so its words are its fields. */
  lemma WordsOfTrimmed(s: string)
    requires |s| > 0 && s[0] > ' ' && s[|s| - 1] > ' '
    ensures Words(s) == Fields(s)
  {
    assert Trim(s) == s;
  }

  /** A run of `\s` characters in front does not change the fields. */
  lemma {:induction false} FieldsAfterSpaces(sep: string, y: string)
    requires forall k :: 0 <= k < |sep| ==> IsSpace(sep[k])
    ensures Fields(sep + y) == Fields(y)
    decreases |sep|
  {
    if |sep| == 0 {
      Seqs.EmptyAppend(sep, y);
    } else {
      Seqs.HeadAppend(sep, y);
      FieldsSpaceCons(sep[0], sep[1..] + y);
      FieldsAfterSpaces(sep[1..], y);
    }
  }

  /** Two visible words with a run of `\s` characters between them are the
      words of the text. */
  lemma WordsPair(x: string, sep: string, y: string)
    requires Visible(x) && Visible(y)
    requires |sep| > 0 && forall k :: 0 <= k < |sep| ==> IsSpace(sep[k])
    ensures Words(x + sep + y) == [x, y]
  {
    Seqs.Regroup(x, sep, y);
    WordsAfter(x, sep[0], sep[1..] + y);
    FieldsSpacedWord(sep[1..], y);
    Seqs.PairAppend(x, y);
  }

  /** A visible word behind a run of `\s` characters is the only field. */
  lemma FieldsSpacedWord(sep: string, y: string)
    requires Visible(y)
    requires forall k :: 0 <= k < |sep| ==> IsSpace(sep[k])
    ensures Fields(sep + y) == [y]
  {
    FieldsAfterSpaces(sep, y);
    VisibleNoSpace(y);
    FieldsWord(y);
  }

  /** A run of two spaces separates two words. */
  lemma WordsTwoSpaces()
    ensures Words("a  b") == ["a", "b"]
  {
    assert "a  b" == "a" + "  " + "b";
    WordsPair("a", "  ", "b");
  }

  /** A tab separates words like a space. */
  lemma WordsTab()
    ensures Words("a\tb") == ["a", "b"]
  {
    assert "a\tb" == "a" + "\t" + "b";
    WordsPair("a", "\t", "b");
  }

  /** A control character outside `\s` is trimmed at the ends but stays
      inside a word. */
  lemma WordsControlInside()
    ensures Words("\U{1}a\U{1}b ") == ["a\U{1}b"]
  {
    assert "\U{1}a\U{1}b " == "\U{1}" + "a\U{1}b" + " ";
    WordsFramed("\U{1}", "a\U{1}b", " ");
    FieldsControlWord();
  }

  /** A word holding a control character outside `\s` is one field. */
  lemma FieldsControlWord()
    ensures Fields("a\U{1}b") == ["a\U{1}b"]
  {
    assert NoSpace("a\U{1}b");
    FieldsWord("a\U{1}b");
  }

  /** A text of one control character is blank. */
  lemma WordsControlOnly()
    ensures Words("\U{1}") == [[]]
  {
    assert Blank("\U{1}");
  }

  /** U+007F lies above U+0020, so it is kept as a word. */
  lemma WordsDelete()
    ensures Words("\U{7F}") == ["\U{7F}"]
  {
    assert Trim("\U{7F}") == "\U{7F}";
    FieldsWord("\U{7F}");
  }
}
